=== FILE: README.md ===
# MuxUtils multiplexer map, modelled in Dafny

This project models the core of MuxUtils' `MultiplexerMapBase<T, C>`. The engine
coalesces concurrent requests for the same string key into one call of the
`onKeyFetch` collaborator. It keeps each key's last good value for a time to live.
When a fetch fails with an error the engine accepts, it serves that value, or the
value a cache backend holds, instead of the error.

The model is functional. The engine state is an immutable value, and each event is
a pure step function:

- a `request` call;
- the arrival of a fetch result ("resolve");
- `clearMemory(key:)`, `clearMemory()`, `clear(key:)` and `clear()`;
- `flush()`.

A step returns the next state, the completion-block calls it makes, and the
`onKeyFetch` call it starts, if any.

Modules, one per component:

- `Results` (`results.dfy`): `Option` and `Result`.
- `Cacher` (`cacher.dfy`): `STANDARD_TTL`. It also models the two backends:
  - `NoCacher`, which keeps nothing;
  - `JSONDiskCacher`, a map from derived file path to stored value.

  Paths follow `cacheDirURL` / `cacheFileURL`. The four backend operations are
  modelled, plus their laws over the pair (key, domain).
- `MultiplexFetcher` (`multiplex_fetcher.dfy`): the per-key record and the four
  operations the engine uses on it.
- `MultiplexerMap` (`multiplexer_map.dfy`): the engine state, its representation
  invariant `Valid`, and every public operation.
- `MultiplexerMapProperties` (`multiplexer_map_properties.dfy`): properties that span
  several steps. These cover single flight for a burst of requests, the
  success / fallback / failure policy as seen by later requests, clearing, detached
  fetchers, and a fresh-key timeline.

Modelling decisions:

- **Fetchers have identities.** `index` is the Swift `fetcherMap`, mapping each key to
  a fetcher id. `fetchers` holds every fetcher created so far and never
  shrinks. Of those, only the mapped ones and those with an outstanding fetch are
  reachable in Swift. The resolve closure
  captures the fetcher object and the key (MultiplexerMap.swift:25, 39-56), so a
  result is addressed to a fetcher id. A fetcher detached by `clearMemory` while its
  fetch is in flight still receives its result.
- **Two bookkeeping fields.** Each fetcher record carries two fields that the Swift
  class does not store:
  - `key`: the key captured by the closure, used for the backend fallback;
  - `outstanding`: the number of `onKeyFetch` calls whose callback has not run yet.

  The engine increments `outstanding` exactly where it calls `onKeyFetch`, and a
  result may only arrive while it is positive. `onKeyFetch` must call back exactly
  once.
- **`MultiplexFetcher` is not part of this model.** Its behaviour is taken from its use
  sites. These are assumptions:
  - `append` adds at the end and answers whether the list was non-empty before;
  - `complete` hands the one result to every waiter in registration order, then
    empties the list;
  - `clearMemory()` drops both the value and the time;
  - `isExpired(ttl:)` holds when `now - completionTime >= ttl`, and also when no
    completion time was ever recorded.

  The last case is reachable. A backend fallback into a fresh fetcher sets
  `previousValue` but leaves `completionTime` unset (MultiplexerMap.swift:48-50).
- **Configuration comes from the engine.** The engine reads `timeToLive`,
  `cacheDomain` and `useCachedResultOn` from its own class (MultiplexerMap.swift:86-90).
  In the model these are `Config` and the `acceptable` argument of `Resolve`. The
  backend's own static `timeToLive` and `useCachedResultOn` (`NoCacher`'s `0` and
  `false`) are modelled in `Cacher` but never read by the engine.
- **Paths.** `appendingPathComponent` does not double a trailing `/`. So for a
  non-empty key the file path is `"Mux/" + key + ".json"` without a domain, and
  `"Mux/" + d + ".Map" + "/" + key + ".json"` with a domain `d`. The empty key adds
  no path component, so `appendingPathExtension` extends the directory's own last
  component. Its file is `"Mux/" + d + ".Map.json"`, beside the domain's directory,
  or `"Mux.json"` without a domain. Paths are relative to the user's caches directory.

Four consequences of the code are worth stating up front:

- **One fetch per fetcher, not per key.** `clearMemory(key:)` during a fetch detaches
  the fetcher. A new request then starts a second fetch for the same key, and the first
  wave's result lands only in the detached fetcher (`DetachedWaveAllowsSecondFetch`).
  What holds is one outstanding fetch per fetcher (`OneFetchPerWave`).
- **Paths are injective only within a domain.** Within one domain, distinct keys give
  distinct path strings (`CacheFilePathInjective`). Across domains, two (key, domain)
  pairs can share a file (`CacheFilePathsCollideAcrossDomains`).
- **Removal is recursive.** `clearCache` and `clearCacheMap` remove the item at a path
  and everything below it. So clearing key `k` also clears key `k + ".json/" + rest`
  (`ClearCacheReachesLongerKey`) and every domain nested below that path
  (`ClearCacheReachesNestedDomain`). Clearing a domain clears every domain nested in its
  directory (`ClearCacheMapReachesNestedDomain`).
- **The empty key escapes its domain's directory.** `clear()` removes the domain's
  directory, but the empty key's file lies beside it and keeps loading
  (`LoadAfterClearCacheMap`, `ClearAll`). Clearing the empty key reaches no other key
  (`ClearReach`).

## Model

| member | source | states |
|---|---|---|
| Cacher.StandardTtlIsHalfAnHour | Multiplexer/Cacher.swift:12 | The standard time to live is 30 × 60 = 1800 seconds. |
| Cacher.BackendTimeToLive | Multiplexer/Cacher.swift:32-34 | The null backend's own time to live is 0. The disk backend's (line 65) is the standard 1800. |
| Cacher.BackendUsesCachedResultOn | Multiplexer/Cacher.swift:32-33 | The null backend never accepts an error for a cached result. The disk backend (line 63) accepts exactly connectivity errors. |
| Cacher.CacheDirPath | Multiplexer/Cacher.swift:87-88 | The directory always starts with "Mux/". It ends in a separator exactly when no domain is given. |
| Cacher.CacheFilePathForms | Multiplexer/Cacher.swift:83-88 | Under a domain, a non-empty key's file is dir + "/" + key + ".json" and the empty key's is dir + ".json". Without a domain they are "Mux/" + key + ".json" and "Mux.json". |
| Cacher.CacheFilePathInjective | Multiplexer/Cacher.swift:83-85 | Within one domain, or with no domain, distinct keys give distinct path strings. |
| Cacher.CacheFilePathsCollideAcrossDomains | Multiplexer/Cacher.swift:83-88 | Across domains the derivation is not injective. For a non-empty c, domain a with key b + ".Map/" + c and domain a + ".Map/" + b with key c share one file, although the keys differ. |
| Cacher.CacheFileInsideDir | Multiplexer/Cacher.swift:79-88 | A key's file lies at or below domain d's directory exactly when the key is non-empty. So clearing the directory removes everything saved under d except the empty key's file. |
| Cacher.LoadFromCache | Multiplexer/Cacher.swift:36 | The null backend never loads a value. |
| Cacher.RemoveRecursively | Multiplexer/Cacher.swift:53-57 | Removing the item at a path removes it and every path below it. Every path outside it is unchanged, and the null backend stays as it is. |
| Cacher.SaveToCache | Multiplexer/Cacher.swift:71-73 | After a save, the key's file holds the value. Every other path is unchanged. The null backend stays as it is (line 37). |
| Cacher.ClearCache | Multiplexer/Cacher.swift:75-77 | The key's file and everything below its path are gone. Every path outside it is unchanged. The null backend stays as it is (line 38). |
| Cacher.ClearCacheMap | Multiplexer/Cacher.swift:79-81 | The domain's directory and every path below it are gone. Every path outside it is unchanged. The null backend stays as it is (line 39). |
| Cacher.LoadAfterSave | Multiplexer/Cacher.swift:67-73 | Load after save returns the saved value (disk backend). Other keys of the same domain keep their values. |
| Cacher.LoadAfterClear | Multiplexer/Cacher.swift:67-77 | After a clear, the key loads nothing, and so does every key underneath it (for a non-empty key, those starting with key + ".json/"). Every other key of the same domain keeps its value. |
| Cacher.ClearReach | Multiplexer/Cacher.swift:75-85 | Within one domain, clearing key k reaches key o's file exactly when o is k, or k is non-empty and o starts with k + ".json/". |
| Cacher.ClearCacheReachesLongerKey | Multiplexer/Cacher.swift:75-77 | Clearing a non-empty key k also removes the distinct key k + ".json/" + rest of the same domain. |
| Cacher.ClearCacheReachesNestedDomain | Multiplexer/Cacher.swift:75-88 | Clearing a non-empty key k of domain a also removes everything saved under domain a + ".Map/" + k + ".json/" + e. |
| Cacher.LoadAfterClearCacheMap | Multiplexer/Cacher.swift:67-85 | After a domain's map is cleared, no non-empty key of that domain loads anything. The empty key loads as before. |
| Cacher.ClearCacheMapReachesNestedDomain | Multiplexer/Cacher.swift:79-88 | Clearing domain d also removes everything saved under domain d + ".Map/" + e, the empty key included. |
| MultiplexFetcher.Append | Multiplexer/MultiplexerMap.swift:33-36 | Assumed: the waiter goes at the end and nothing else changes. The answer is true exactly when a wave was already waiting. |
| MultiplexFetcher.Broadcast | Multiplexer/MultiplexerMap.swift:45 | Assumed: the broadcast has one call per waiter, in registration order, each with the same result. |
| MultiplexFetcher.Complete | Multiplexer/MultiplexerMap.swift:45-54 | Assumed: completing leaves no waiters and keeps every other field. It makes one delivery per former waiter, in registration order, each with the same result. |
| MultiplexFetcher.ClearMemory | Multiplexer/MultiplexerMap.swift:53 | Assumed: the value and the completion time are dropped. Everything else is kept. |
| MultiplexFetcher.NewFetcher | Multiplexer/MultiplexerMap.swift:100 | A new record holds its key, has no waiters and no outstanding fetch, satisfies the wave invariant, and never answers from memory. |
| MultiplexFetcher.IsExpired | Multiplexer/MultiplexerMap.swift:28 | Assumed: a record with no completion time counts as expired. With time t, it is expired exactly when now ≥ t + ttl. |
| MultiplexFetcher.ExpiryIsMonotone | Multiplexer/MultiplexerMap.swift:28 | Once expired, a record stays expired at every later time. |
| MultiplexerMap.DefaultConfig | Multiplexer/MultiplexerMap.swift:88-90 | An engine that does not override its class members has a time to live of 1800 and the given domain. |
| MultiplexerMap.Init | Multiplexer/MultiplexerMap.swift:19-21 | A new engine maps no key and has no fetchers, so nothing is in flight. It satisfies the invariant and keeps the given config and backend. |
| MultiplexerMap.FetcherForKey | Multiplexer/MultiplexerMap.swift:97-104 | Afterwards the key is mapped. An existing fetcher is returned and the state is unchanged. Otherwise a fresh empty fetcher with a new identity is inserted. The fetcher ids are the old ones plus that one, and no other key or fetcher is touched. |
| MultiplexerMap.Request | Multiplexer/MultiplexerMap.swift:24-39 | A mapped key keeps its fetcher. An unmapped key gets a fetcher that did not exist before and holds no value or time. The fetcher ids are the old ones plus the key's. Fast path: the request is answered at once with success(previousValue) exactly when it is not a refresh and the key's value is present and unexpired. The state is then unchanged and nothing is fetched. Otherwise the waiter is appended to the key's fetcher, keeping value and time. A fetch bound to that fetcher starts exactly when no waiter was there before. Other keys and fetchers are untouched and the invariant is kept. |
| MultiplexerMap.Fallback | Multiplexer/MultiplexerMap.swift:48 | The fetcher's own value comes first. Otherwise it is the backend's value for the captured key in the engine's domain. It is absent exactly when both are. With the null backend only memory counts. |
| MultiplexerMap.Resolve | Multiplexer/MultiplexerMap.swift:39-56 | Success: the value and time become the result and now, and every waiter gets success(value) in order. Acceptable failure with a fallback (memory first, else the backend under the key and domain): the fallback becomes the value, the time is unchanged, and every waiter gets success(fallback). Otherwise value and time are cleared and every waiter gets the original error. Waiters end up empty and one outstanding fetch is retired. Nothing else changes and the invariant is kept. |
| MultiplexerMap.ClearMemoryKey | Multiplexer/MultiplexerMap.swift:60-62 | Only that key is unmapped. Other keys, all fetcher objects and the backend are unchanged. |
| MultiplexerMap.ClearMemoryAll | Multiplexer/MultiplexerMap.swift:64-66 | No key stays mapped. Fetcher objects and the backend are unchanged. |
| MultiplexerMap.ClearKey | Multiplexer/MultiplexerMap.swift:68-71 | The key is unmapped as by clearMemory(key:). The null backend stays as it is. The key and every key underneath it load nothing in the engine's domain. For a non-empty key, those underneath start with key + ".json/"; the empty key has none. Every other key of the domain loads as before, and every path outside the key's path is unchanged. |
| MultiplexerMap.ClearAll | Multiplexer/MultiplexerMap.swift:73-76 | Memory is emptied and the null backend stays as it is. No non-empty key of the engine's domain loads anything, while the empty key, whose file lies beside the directory, loads as before. Paths outside the domain's directory are unchanged. |
| MultiplexerMap.Flush | Multiplexer/MultiplexerMap.swift:78-84 | Memory is unchanged. Afterwards each key whose mapped fetcher holds a value loads that value (disk backend), and every other key loads as before. Only those keys' files change, whatever the walk order. |
| MultiplexerMapProperties.ServedFromMemory | Multiplexer/MultiplexerMap.swift:27-31 | While the value is fresh, any number of non-refreshing requests all get success(value), in order. They start no fetch and leave the state unchanged. |
| MultiplexerMapProperties.RequestJoinsWave | Multiplexer/MultiplexerMap.swift:33-36 | A request that arrives during a wave and is not served from memory only appends. This holds even with refresh = true. |
| MultiplexerMapProperties.JoinWave | Multiplexer/MultiplexerMap.swift:33-36 | Any number of such requests start no fetch, deliver nothing, and extend the same fetcher's waiters by exactly those waiters in order. Value and time are kept. |
| MultiplexerMapProperties.RequestStartsWave | Multiplexer/MultiplexerMap.swift:33-39 | A request with no wave in flight that is not served from memory starts one fetch for its key's fetcher, with itself as the only waiter. |
| MultiplexerMapProperties.BurstStartsOneWave | Multiplexer/MultiplexerMap.swift:24-39 | N ≥ 1 requests with no wave in flight, the first not served from memory, make exactly one onKeyFetch call. All N wait on it in order. |
| MultiplexerMapProperties.SingleFlight | Multiplexer/MultiplexerMap.swift:24-39 | N ≥ 1 requests with no wave in flight make exactly one fetch, with all N waiting, or none, with all N answered from memory and the state unchanged. |
| MultiplexerMapProperties.RefreshFetchesUnlessInFlight | Multiplexer/MultiplexerMap.swift:28-39 | A refreshing request is never served from memory. It starts a fetch exactly when none is in flight for its key. |
| MultiplexerMapProperties.OneFetchPerWave | Multiplexer/MultiplexerMap.swift:33-39 | In every valid state each fetcher has at most one outstanding fetch. It has waiters exactly while that fetch is outstanding. |
| MultiplexerMapProperties.FailureThenRequestFetches | Multiplexer/MultiplexerMap.swift:52-54 | An unmasked failure reaches every waiter unchanged. The next request for the key, refreshing or not, fetches again. |
| MultiplexerMapProperties.SuccessMasksLaterAcceptableFailure | Multiplexer/MultiplexerMap.swift:42-50 | After a success with V, a later acceptable failure gives its waiters success(V). V stays in memory and the completion time stays that of the success. |
| MultiplexerMapProperties.MemoryBeforeBackend | Multiplexer/MultiplexerMap.swift:48 | When the fetcher holds a value, the backend's content makes no difference to the outcome of a fetch result. |
| MultiplexerMapProperties.NoCacherMasksOnlyFromMemory | Multiplexer/MultiplexerMap.swift:47-54 | With the null backend, a failure reaches waiters as a success exactly when it is acceptable and the fetcher itself holds a value. |
| MultiplexerMapProperties.ClearThenRequestFetches | Multiplexer/MultiplexerMap.swift:68-71 | After clear(key:), a request for the key always starts a fetch on a new fetcher, whatever was cached or in flight. |
| MultiplexerMapProperties.DetachedWaveAllowsSecondFetch | Multiplexer/MultiplexerMap.swift:24-62 | clearMemory(key:) during a fetch lets a new request start a second fetch for the same key on another fetcher, with both outstanding. The first result then changes neither the map nor the new fetcher. |
| MultiplexerMapProperties.FreshKeyTimeline | Multiplexer/MultiplexerMap.swift:24-56 | Fresh key: a timeout with no fallback reaches the caller. The next fetch succeeds. A request within the time to live is answered from memory without fetching. A request after it has elapsed fetches again. |

## Left out

- File system and JSON (Multiplexer/Cacher.swift:43-58, 68, 72) are left out. The disk is a map from path to decoded value, and JSON encoding is assumed to round-trip. Also not modelled: directory creation, the caches-directory root, the `try!` crash on a failed save and `try?` turning read errors into absence.
- `error.isConnectivityError` is a foreign classification. `Resolve` takes the engine's `useCachedResultOn` verdict as the boolean `acceptable`.
- `String(describing: T.self)` is reflection. The domain is a string in `Config`.
- `Date()` and the floating-point `TimeInterval` are left out. Time is an integer tick passed in as `now`.
- Asynchrony, threads and escaping closures are left out. An in-flight fetch is the `outstanding` count, a fetch result is an explicit `Resolve` event, and a completion block is a `WaiterId` that appears in the returned deliveries.
- The internals of `MultiplexFetcher` are not part of this model. Only the behaviour its use sites rely on is modelled, as stated above.
- Cacher.LoadFromCache: its contract covers only the null backend. The disk backend's load is stated relationally by `LoadAfterSave`, `LoadAfterClear` and `LoadAfterClearCacheMap`, because a file written by some other program is outside the model.
- Directories are not modelled as entries. A path holds a value or nothing, so the model does not know whether a path is a file or a directory. `removeRecursively` is modelled as removing every path at or below the given one.
- Cacher.SaveToCache: a write whose path crosses an existing file, or whose parent directory is missing (a key containing "/"), makes `try!` crash in Swift. The model writes the path regardless.
- Cacher.CacheFilePathInjective: it is about path strings. The file system may map distinct strings to one file: "a/" and "a", "a//b" and "a/b", "./a" and "a", or "A" and "a" on a case-insensitive volume. A key made only of "/" collapses like the empty key. URL and file-system normalisation is not modelled beyond the empty key.

=== FILE: cacher.dfy ===
/** The cache backend of Multiplexer/Cacher.swift: the null backend `NoCacher` and the
    JSON-on-disk backend `JSONDiskCacher`, whose files are modelled as a map from the
    derived path (relative to the caches directory) to the stored value. */
module Cacher {
  import opened Results

  type Key = string

  /** STANDARD_TTL: thirty minutes, in seconds. */
  const StandardTtl: int := 30 * 60

  lemma StandardTtlIsHalfAnHour()
    ensures StandardTtl == 1800
  {
  }

  /** `NoCacher` keeps nothing; `JsonDisk` keeps one decoded value per file path. */
  datatype Backend<V> = NoCacher | JsonDisk(files: map<string, V>)

  /** The backend's own static `timeToLive`: `NoCacher.timeToLive` and
      `JSONDiskCacher.timeToLive`. */
  function BackendTimeToLive<V>(b: Backend<V>): (ttl: int)
    ensures b.NoCacher? ==> ttl == 0
    ensures b.JsonDisk? ==> ttl == StandardTtl
  {
    match b
    case NoCacher => 0
    case JsonDisk(_) => StandardTtl
  }

  /** The backend's own static `useCachedResultOn`, given whether the error is a
      connectivity error: `NoCacher.useCachedResultOn` and
      `JSONDiskCacher.useCachedResultOn`. */
  function BackendUsesCachedResultOn<V>(b: Backend<V>, isConnectivityError: bool): (ok: bool)
    ensures ok ==> b.JsonDisk?
    ensures b.JsonDisk? ==> (ok <==> isConnectivityError)
  {
    b.JsonDisk? && isConnectivityError
  }

  // ---------------------------------------------------------------------------
  // Path derivation (cacheDirURL, cacheFileURL)
  // ---------------------------------------------------------------------------

  /** The directory for a domain: "Mux/<domain>.Map", or "Mux/" without a domain. */
  function CacheDirPath(domain: Option<string>): (dir: string)
    ensures |dir| >= 4 && dir[..4] == "Mux/"
    ensures domain.Some? ==> dir[|dir| - 1] != '/'
    ensures domain.None? ==> dir[|dir| - 1] == '/'
  {
    "Mux/" + (if domain.Some? then domain.value + ".Map" else "")
  }

  /** The directory path without a trailing separator: "Mux/<domain>.Map", or "Mux"
      without a domain. Its last component is the one `appendingPathExtension` extends
      when the key adds no component of its own. */
  function DirStem(domain: Option<string>): (stem: string)
    ensures domain.Some? ==> CacheDirPath(domain) == stem
    ensures domain.None? ==> CacheDirPath(domain) == stem + "/"
  {
    if domain.Some? then CacheDirPath(domain) else "Mux"
  }

  /** Everything up to a non-empty key in a file path: the directory and the separator
      `appendingPathComponent` inserts, unless the directory already ends with one. */
  function EntryPrefix(domain: Option<string>): (prefix: string)
    ensures prefix == DirStem(domain) + "/"
  {
    if domain.Some? then CacheDirPath(domain) + "/" else CacheDirPath(domain)
  }

  /** The file holding `key` under `domain`: "<dir>/<key>.json". An empty key adds no
      path component, so the extension goes onto the directory's own last component and
      the file "<dir>.json" lies beside the directory, not inside it. */
  function CacheFilePath(key: Key, domain: Option<string>): string
  {
    if key == "" then DirStem(domain) + ".json" else EntryPrefix(domain) + key + ".json"
  }

  /** The file path spelled out: under a domain a non-empty key's file is inside the
      domain's directory and the empty key's file is beside it; without a domain they
      are "Mux/<key>.json" and "Mux.json". */
  lemma CacheFilePathForms(key: Key, domain: Option<string>)
    ensures domain.Some? && key != "" ==> CacheFilePath(key, domain) == CacheDirPath(domain) + "/" + key + ".json"
    ensures domain.Some? && key == "" ==> CacheFilePath(key, domain) == CacheDirPath(domain) + ".json"
    ensures domain.None? && key != "" ==> CacheFilePath(key, domain) == "Mux/" + key + ".json"
    ensures domain.None? && key == "" ==> CacheFilePath(key, domain) == "Mux.json"
  {
  }

  predicate IsPrefix(p: string, s: string)
  {
    |p| <= |s| && s[..|p|] == p
  }

  /** The file of the empty key and the file of a non-empty key part at the character
      after the stem: '.' in one, '/' in the other. */
  lemma {:induction false} EmptyKeyFileApart(key: Key, domain: Option<string>)
    requires key != ""
    ensures CacheFilePath("", domain)[|DirStem(domain)|] == '.'
    ensures CacheFilePath(key, domain)[|DirStem(domain)|] == '/'
    ensures |CacheFilePath("", domain)| < |CacheFilePath(key, domain)|
  {
    var st := DirStem(domain);
    var j := ".json";
    assert CacheFilePath("", domain) == st + j;
    assert CacheFilePath(key, domain) == st + "/" + key + j;
    StemApart(st, "/", key, j);
  }

  /** The shape behind `EmptyKeyFileApart`, over plain strings. */
  lemma StemApart(st: string, sl: string, key: string, j: string)
    requires |sl| == 1 && |j| > 0
    ensures (st + j)[|st|] == j[0]
    ensures (st + sl + key + j)[|st|] == sl[0]
    ensures |st + j| < |st + sl + key + j| || key == ""
  {
  }

  /** Within one domain, distinct keys give distinct path strings. */
  lemma {:induction false} CacheFilePathInjective(k1: Key, k2: Key, domain: Option<string>)
    ensures CacheFilePath(k1, domain) == CacheFilePath(k2, domain) ==> k1 == k2
  {
    var p := EntryPrefix(domain);
    if k1 == "" && k2 != "" {
      EmptyKeyFileApart(k2, domain);
    } else if k1 != "" && k2 == "" {
      EmptyKeyFileApart(k1, domain);
    } else if k1 != "" && CacheFilePath(k1, domain) == CacheFilePath(k2, domain) {
      var s := p + k1 + ".json";
      assert s == p + k2 + ".json";
      assert |k1| == |k2|;
      assert s[|p|..|p| + |k1|] == k1;
      assert (p + k2 + ".json")[|p|..|p| + |k2|] == k2;
    }
  }

  /** Across domains the derivation is not injective: domain `a` with key
      `b + ".Map/" + c` and domain `a + ".Map/" + b` with a non-empty key `c` share one
      file (for instance domain "a" with key "b.Map/c" and domain "a.Map/b" with key "c"). */
  lemma {:induction false} CacheFilePathsCollideAcrossDomains(a: string, b: string, c: Key)
    requires c != ""
    ensures b + ".Map/" + c != c
    ensures CacheFilePath(b + ".Map/" + c, Some(a)) == CacheFilePath(c, Some(a + ".Map/" + b))
  {
    assert |b + ".Map/" + c| > |c|;
    var m, sl, j := ".Map", "/", ".json";
    assert m + sl == ".Map/";
    FileUnderDir(b + ".Map/" + c, a);
    FileUnderDir(c, a + ".Map/" + b);
    CollideShape("Mux/", a, m, sl, b, c, j);
  }

  /** The associativity step behind `CacheFilePathsCollideAcrossDomains`. */
  lemma CollideShape(mux: string, a: string, m: string, sl: string, b: string, c: string, j: string)
    ensures mux + (a + m) + (sl + (b + (m + sl) + c) + j) == mux + ((a + (m + sl) + b) + m) + (sl + c + j)
  {
  }


  /** A non-empty key's file lies inside its domain's directory, so removing the
      directory removes it; the empty key's file lies beside the directory and survives. */
  lemma {:induction false} CacheFileInsideDir(key: Key, domain: string)
    ensures key != "" ==> IsPrefix(CacheDirPath(Some(domain)) + "/", CacheFilePath(key, Some(domain)))
    ensures Within(CacheDirPath(Some(domain)), CacheFilePath(key, Some(domain))) <==> key != ""
  {
    var dir := CacheDirPath(Some(domain));
    var path := CacheFilePath(key, Some(domain));
    CacheFilePathForms(key, Some(domain));
    if key != "" {
      assert path == (dir + "/") + (key + ".json");
      assert path[..|dir + "/"|] == dir + "/";
    } else {
      assert path == dir + ".json";
      assert path[|dir|] == '.' && (dir + "/")[|dir|] == '/';
      assert !IsPrefix(dir + "/", path) by {
        if |dir + "/"| <= |path| {
          assert path[..|dir + "/"|][|dir|] == path[|dir|];
        }
      }
    }
  }

  // ---------------------------------------------------------------------------
  // The four Cacher operations
  // ---------------------------------------------------------------------------

  /** The value stored at a path, if any. */
  function Lookup<V>(b: Backend<V>, path: string): Option<V>
  {
    match b
    case NoCacher => None
    case JsonDisk(files) => if path in files then Some(files[path]) else None
  }

  /** `loadFromCache`: the value in the key's file, or none when there is no file. */
  function LoadFromCache<V>(b: Backend<V>, key: Key, domain: Option<string>): (r: Option<V>)
    ensures b.NoCacher? ==> r.None?
  {
    Lookup(b, CacheFilePath(key, domain))
  }

  /** `saveToCache`: (over)writes the key's file; `NoCacher` does nothing. */
  function SaveToCache<V>(b: Backend<V>, value: V, key: Key, domain: Option<string>): (r: Backend<V>)
    ensures r.NoCacher? <==> b.NoCacher?
    ensures b.NoCacher? ==> r == b
    ensures b.JsonDisk? ==> Lookup(r, CacheFilePath(key, domain)) == Some(value)
    ensures forall p :: p != CacheFilePath(key, domain) ==> Lookup(r, p) == Lookup(b, p)
  {
    match b
    case NoCacher => NoCacher
    case JsonDisk(files) => JsonDisk(files[CacheFilePath(key, domain) := value])
  }

  /** Whether removing the item at `root` removes the entry at `p`: `p` is `root` itself
      or lies below it, for `root` may be a directory. */
  predicate Within(root: string, p: string)
  {
    p == root || IsPrefix(root + "/", p)
  }

  /** `FileManager.removeRecursively`: the item at `root` and everything below it are gone. */
  function RemoveRecursively<V>(b: Backend<V>, root: string): (r: Backend<V>)
    ensures r.NoCacher? <==> b.NoCacher?
    ensures b.NoCacher? ==> r == b
    ensures forall p :: Within(root, p) ==> Lookup(r, p).None?
    ensures forall p :: !Within(root, p) ==> Lookup(r, p) == Lookup(b, p)
  {
    match b
    case NoCacher => NoCacher
    case JsonDisk(files) => JsonDisk(map p | p in files && !Within(root, p) :: files[p])
  }

  /** `clearCache`: removes the item at the key's file path, and everything below it
      should that path be a directory; `NoCacher` does nothing. */
  function ClearCache<V>(b: Backend<V>, key: Key, domain: Option<string>): (r: Backend<V>)
    ensures r.NoCacher? <==> b.NoCacher?
    ensures b.NoCacher? ==> r == b
    ensures Lookup(r, CacheFilePath(key, domain)).None?
    ensures forall p :: Within(CacheFilePath(key, domain), p) ==> Lookup(r, p).None?
    ensures forall p :: !Within(CacheFilePath(key, domain), p) ==> Lookup(r, p) == Lookup(b, p)
  {
    RemoveRecursively(b, CacheFilePath(key, domain))
  }

  /** `clearCacheMap`: removes the domain's directory and everything below it;
      `NoCacher` does nothing. */
  function ClearCacheMap<V>(b: Backend<V>, domain: string): (r: Backend<V>)
    ensures r.NoCacher? <==> b.NoCacher?
    ensures b.NoCacher? ==> r == b
    ensures forall p :: Within(CacheDirPath(Some(domain)), p) ==> Lookup(r, p).None?
    ensures forall p :: !Within(CacheDirPath(Some(domain)), p) ==> Lookup(r, p) == Lookup(b, p)
  {
    RemoveRecursively(b, CacheDirPath(Some(domain)))
  }

  // ---------------------------------------------------------------------------
  // The backend seen as a map from (key, domain) to value
  // ---------------------------------------------------------------------------

  /** Load after save returns the saved value, and other keys of the same domain keep theirs. */
  lemma LoadAfterSave<V>(b: Backend<V>, value: V, key: Key, other: Key, domain: Option<string>)
    ensures b.JsonDisk? ==> LoadFromCache(SaveToCache(b, value, key, domain), key, domain) == Some(value)
    ensures other != key ==>
      LoadFromCache(SaveToCache(b, value, key, domain), other, domain) == LoadFromCache(b, other, domain)
  {
    CacheFilePathInjective(key, other, domain);
  }

  /** A key whose file lies at or below `key`'s file path in the same domain: `key`
      itself, or, for a non-empty `key`, a key starting with `key + ".json/"`. The empty
      key's file lies beside the directory, so nothing else lies below it. */
  predicate Underneath(key: Key, other: Key)
  {
    other == key || (key != "" && IsPrefix(key + ".json/", other))
  }

  /** Cancelling a common prefix. */
  lemma {:induction false} PrefixCancel(e: string, q: string, x: string)
    ensures IsPrefix(e + q, e + x) <==> IsPrefix(q, x)
  {
    if IsPrefix(q, x) {
      assert (e + x)[..|e + q|] == e + x[..|q|];
    }
    if IsPrefix(e + q, e + x) {
      assert x[..|q|] == (e + x)[..|e + q|][|e|..];
    }
  }

  /** A prefix ending in a separator cannot reach into an extension without one. */
  lemma {:induction false} PrefixBeforeExtension(q: string, x: string, j: string)
    requires |q| > 0 && q[|q| - 1] == '/'
    requires forall i :: 0 <= i < |j| ==> j[i] != '/'
    ensures IsPrefix(q, x + j) <==> IsPrefix(q, x)
  {
    var y := x + j;
    if IsPrefix(q, y) {
      if |q| > |x| {
        assert false;
      }
      assert x[..|q|] == y[..|q|];
    }
    if IsPrefix(q, x) {
      assert y[..|q|] == x[..|q|];
    }
  }

  /** Within one domain, clearing `key` reaches `other`'s file exactly when `other` is
      underneath `key`. */
  lemma {:induction false} ClearReach(key: Key, other: Key, domain: Option<string>)
    ensures Within(CacheFilePath(key, domain), CacheFilePath(other, domain)) <==> Underneath(key, other)
  {
    CacheFilePathInjective(key, other, domain);
    if key == "" && other != "" {
      EmptyKeyReachesNothingElse(other, domain);
    } else if key != "" && other == "" {
      EmptyKeyFileApart(key, domain);
    } else if key != "" {
      NonEmptyKeyReach(key, other, domain);
    }
  }

  /** The empty key's file lies beside the directory: no other key's file is below it. */
  lemma {:induction false} EmptyKeyReachesNothingElse(other: Key, domain: Option<string>)
    requires other != ""
    ensures !IsPrefix(CacheFilePath("", domain) + "/", CacheFilePath(other, domain))
  {
    var pk := CacheFilePath("", domain) + "/";
    var po := CacheFilePath(other, domain);
    var st := DirStem(domain);
    EmptyKeyFileApart(other, domain);
    assert pk == st + ".json/" && pk[|st|] == '.';
    if |pk| <= |po| {
      assert po[..|pk|][|st|] == po[|st|];
    }
  }

  /** For two non-empty keys, one's file lies below the other's path exactly when the
      key starts with the other key plus ".json/". */
  lemma {:induction false} NonEmptyKeyReach(key: Key, other: Key, domain: Option<string>)
    requires key != "" && other != ""
    ensures IsPrefix(CacheFilePath(key, domain) + "/", CacheFilePath(other, domain)) <==> IsPrefix(key + ".json/", other)
  {
    var j, sl := ".json", "/";
    assert j + sl == ".json/";
    assert forall i :: 0 <= i < |j| ==> j[i] != '/';
    var e := EntryPrefix(domain);
    var q := key + (j + sl);
    assert CacheFilePath(key, domain) + sl == e + q by {
      assert CacheFilePath(key, domain) == e + key + j;
    }
    assert CacheFilePath(other, domain) == e + (other + j);
    PrefixCancel(e, q, other + j);
    PrefixBeforeExtension(q, other, j);
  }


  /** Load after clear returns none for the key and for every key underneath it, and
      every other key of the same domain keeps its value. */
  lemma LoadAfterClear<V>(b: Backend<V>, key: Key, other: Key, domain: Option<string>)
    ensures LoadFromCache(ClearCache(b, key, domain), key, domain).None?
    ensures Underneath(key, other) ==> LoadFromCache(ClearCache(b, key, domain), other, domain).None?
    ensures !Underneath(key, other) ==>
      LoadFromCache(ClearCache(b, key, domain), other, domain) == LoadFromCache(b, other, domain)
  {
    ClearReach(key, other, domain);
  }

  /** Clearing a non-empty key removes a distinct key of the same domain:
      `key + ".json/" + rest` (for instance key "k.json/x" when clearing "k"), once
      "k.json" is a directory. */
  lemma {:induction false} ClearCacheReachesLongerKey<V>(b: Backend<V>, key: Key, rest: string, domain: Option<string>)
    requires key != ""
    ensures key + ".json/" + rest != key
    ensures LoadFromCache(ClearCache(b, key, domain), key + ".json/" + rest, domain).None?
  {
    var q := key + ".json/";
    assert (q + rest)[..|q|] == q;
    assert Underneath(key, q + rest);
    LoadAfterClear(b, key, q + rest, domain);
  }

  /** What follows the directory in a file path: "/<key>.json", or ".json" for the
      empty key. */
  function FileTail(key: Key): string
  {
    if key == "" then ".json" else "/" + key + ".json"
  }

  lemma {:induction false} FileUnderDir(key: Key, domain: string)
    ensures CacheFilePath(key, Some(domain)) == "Mux/" + (domain + ".Map") + FileTail(key)
  {
    var dir := CacheDirPath(Some(domain));
    assert dir == "Mux/" + (domain + ".Map");
    if key != "" {
      assert CacheFilePath(key, Some(domain)) == dir + "/" + key + ".json";
      TailShape(dir, "/", key, ".json");
    }
  }

  lemma TailShape(d: string, sl: string, k: string, j: string)
    ensures d + sl + k + j == d + (sl + k + j)
  {
  }


  /** Clearing a non-empty key `k` of domain `a` also removes what was saved under
      domain `a + ".Map/" + k + ".json/" + e`, whose directory lies below that key's path. */
  lemma {:induction false} ClearCacheReachesNestedDomain<V>(b: Backend<V>, a: string, k: Key, e: string, key: Key)
    requires k != ""
    ensures LoadFromCache(ClearCache(b, k, Some(a)), key, Some(a + ".Map/" + k + ".json/" + e)).None?
  {
    var m, j, sl := ".Map", ".json", "/";
    assert m + sl == ".Map/" && j + sl == ".json/";
    var root := "Mux/" + (a + m) + sl + k + j;
    var rest := e + m + FileTail(key);
    CacheFilePathForms(k, Some(a));
    assert root == CacheFilePath(k, Some(a));
    FileUnderDir(key, a + ".Map/" + k + ".json/" + e);
    KeyNestedShape("Mux/", a, m, sl, k, j, e, FileTail(key));
    assert CacheFilePath(key, Some(a + ".Map/" + k + ".json/" + e)) == root + sl + rest;
    assert (root + sl + rest)[..|root + sl|] == root + sl;
    assert Within(root, root + sl + rest);
  }

  /** The associativity step behind `ClearCacheReachesNestedDomain`. */
  lemma KeyNestedShape(mux: string, a: string, m: string, sl: string, k: string, j: string, e: string, tail: string)
    ensures mux + ((a + (m + sl) + k + (j + sl) + e) + m) + tail
         == (mux + (a + m) + sl + k + j) + sl + (e + m + tail)
  {
  }

  /** After clearing a domain's map no non-empty key of that domain loads anything; the
      empty key's file lies beside the directory and loads as before. */
  lemma LoadAfterClearCacheMap<V>(b: Backend<V>, key: Key, domain: string)
    ensures key != "" ==> LoadFromCache(ClearCacheMap(b, domain), key, Some(domain)).None?
    ensures key == "" ==> LoadFromCache(ClearCacheMap(b, domain), key, Some(domain)) == LoadFromCache(b, key, Some(domain))
  {
    CacheFileInsideDir(key, domain);
  }

  /** Clearing domain `d` also removes everything saved under a domain nested in its
      directory, `d + ".Map/" + e` (for instance domain "a.Map/b" when clearing "a"),
      the empty key included. */
  lemma {:induction false} ClearCacheMapReachesNestedDomain<V>(b: Backend<V>, d: string, e: string, key: Key)
    ensures LoadFromCache(ClearCacheMap(b, d), key, Some(d + ".Map/" + e)).None?
  {
    var m, sl := ".Map", "/";
    assert m + sl == ".Map/";
    var dir := "Mux/" + (d + m);
    var rest := e + m + FileTail(key);
    assert dir == CacheDirPath(Some(d));
    FileUnderDir(key, d + ".Map/" + e);
    MapNestedShape("Mux/", d, m, sl, e, FileTail(key));
    assert CacheFilePath(key, Some(d + ".Map/" + e)) == dir + sl + rest;
    assert (dir + sl + rest)[..|dir + sl|] == dir + sl;
    assert Within(dir, dir + sl + rest);
  }

  /** The associativity step behind `ClearCacheMapReachesNestedDomain`. */
  lemma MapNestedShape(mux: string, d: string, m: string, sl: string, e: string, tail: string)
    ensures mux + ((d + (m + sl) + e) + m) + tail == (mux + (d + m)) + sl + (e + m + tail)
  {
  }
}

=== FILE: multiplex_fetcher.dfy ===
/** The per-key record `MultiplexFetcher<T>`. Its source file is not part of this model;
    the operations below are the behaviour its use sites in
    Multiplexer/MultiplexerMap.swift rely on, and each is a modelling assumption:
    - `append(completion:)` adds the completion at the end of the list and answers
      whether a wave was already in flight, i.e. whether the list was non-empty;
    - `complete(result:)` hands the one result to every waiter in registration order
      and then empties the list;
    - `clearMemory()` drops both the value and its completion time;
    - `isExpired(ttl:)` holds when `now - completionTime >= ttl`, and when no
      completion time was ever recorded. */
module MultiplexFetcher {
  import opened Results

  /** A completion block, identified by the order in which callers hand them in. */
  type WaiterId = nat

  /** One call of one completion block with its result. */
  datatype Delivery<+V, +E> = Delivery(waiter: WaiterId, result: Result<V, E>)

  /** The record. Besides the three Swift fields it keeps the key the resolve closure
      captured (`key`) and the number of `onKeyFetch` calls whose result callback has not
      run yet (`outstanding`); neither is stored by the Swift class, both are what the
      closures and the fetch collaborator hold on to. */
  datatype Fetcher<V> = Fetcher(
    key: string,
    previousValue: Option<V>,
    completionTime: Option<int>,
    waiters: seq<WaiterId>,
    outstanding: nat)

  /** A record just created by `fetcherForKey`. */
  function NewFetcher<V>(key: string): (f: Fetcher<V>)
    ensures f.key == key && f.waiters == [] && f.outstanding == 0
    ensures WaveConsistent(f)
    ensures forall ttl, now :: !ServesFromMemory(f, ttl, now)
  {
    Fetcher(key, None, None, [], 0)
  }

  /** `append(completion:)`: the record with the waiter added, and whether a wave was
      already in flight. */
  function Append<V>(f: Fetcher<V>, w: WaiterId): (r: (Fetcher<V>, bool))
    ensures r.1 <==> |f.waiters| > 0
    ensures |r.0.waiters| == |f.waiters| + 1
    ensures r.0.waiters[..|f.waiters|] == f.waiters && r.0.waiters[|f.waiters|..] == [w]
    ensures r.0.(waiters := f.waiters) == f
  {
    (f.(waiters := f.waiters + [w]), |f.waiters| > 0)
  }

  /** The deliveries of one broadcast: every waiter, in order, gets `result`. */
  function Broadcast<V, E>(waiters: seq<WaiterId>, result: Result<V, E>): (ds: seq<Delivery<V, E>>)
    ensures |ds| == |waiters|
    ensures forall i :: 0 <= i < |ds| ==> ds[i].waiter == waiters[i] && ds[i].result == result
    decreases |waiters|
  {
    if waiters == [] then []
    else Broadcast(waiters[..|waiters| - 1], result) + [Delivery(waiters[|waiters| - 1], result)]
  }

  /** `complete(result:)`: the deliveries, and the record with no waiters left. */
  function Complete<V, E>(f: Fetcher<V>, result: Result<V, E>): (r: (Fetcher<V>, seq<Delivery<V, E>>))
    ensures r.0.waiters == [] && r.0.(waiters := f.waiters) == f
    ensures |r.1| == |f.waiters|
    ensures forall i :: 0 <= i < |r.1| ==> r.1[i] == Delivery(f.waiters[i], result)
  {
    (f.(waiters := []), Broadcast(f.waiters, result))
  }

  /** `clearMemory()`: forget the value and when it was obtained. */
  function ClearMemory<V>(f: Fetcher<V>): (r: Fetcher<V>)
    ensures r.previousValue.None? && r.completionTime.None?
    ensures r.(previousValue := f.previousValue, completionTime := f.completionTime) == f
  {
    f.(previousValue := None, completionTime := None)
  }

  /** `isExpired(ttl:)` at time `now`. */
  function IsExpired<V>(f: Fetcher<V>, ttl: int, now: int): (expired: bool)
    ensures f.completionTime.None? ==> expired
    ensures f.completionTime.Some? ==> (expired <==> now >= f.completionTime.value + ttl)
  {
    f.completionTime.None? || now - f.completionTime.value >= ttl
  }

  /** Once expired, a record stays expired as time goes on. */
  lemma ExpiryIsMonotone<V>(f: Fetcher<V>, ttl: int, now: int, later: int)
    requires now <= later
    ensures IsExpired(f, ttl, now) ==> IsExpired(f, ttl, later)
  {
  }

  /** The fast path's test: a value is held and it has not expired. */
  predicate ServesFromMemory<V>(f: Fetcher<V>, ttl: int, now: int)
  {
    f.previousValue.Some? && !IsExpired(f, ttl, now)
  }

  /** What every record satisfies between engine steps: at most one fetch is outstanding,
      waiters are present exactly while it is, and a completion time is only recorded
      together with a value. */
  predicate WaveConsistent<V>(f: Fetcher<V>)
  {
    && f.outstanding <= 1
    && (|f.waiters| > 0 <==> f.outstanding == 1)
    && (f.completionTime.Some? ==> f.previousValue.Some?)
  }
}

=== FILE: multiplexer_map.dfy ===
/** The coalescing engine `MultiplexerMapBase<T, C>` of Multiplexer/MultiplexerMap.swift,
    as a state machine: each public call and each arrival of a fetch result is a pure step
    from one engine state to the next, returning what the Swift code hands to completion
    blocks and whether it called `onKeyFetch`. */
module MultiplexerMap {
  import opened Results
  import opened Cacher
  import opened MultiplexFetcher

  /** Identity of a `MultiplexFetcher` object. */
  type FetcherId = nat

  /** The engine's own class members: `timeToLive` and `cacheDomain`. The backend's
      static `timeToLive` and `useCachedResultOn` are never consulted by the engine. */
  datatype Config = Config(timeToLive: int, cacheDomain: string)

  /** `index` is the Swift `fetcherMap` (key to fetcher object); `fetchers` holds every
      fetcher object created so far and is never shrunk. Of those, only the mapped ones
      and those with an outstanding fetch are reachable in Swift: a resolve closure keeps
      a fetcher alive after `clearMemory` detached it from the map. */
  datatype Engine<V> = Engine(
    config: Config,
    index: map<Key, FetcherId>,
    fetchers: map<FetcherId, Fetcher<V>>,
    nextId: nat,
    backend: Backend<V>)

  /** A call of `onKeyFetch(key)` whose result callback is bound to one fetcher object. */
  datatype FetchCall = FetchCall(key: Key, fetcher: FetcherId)

  /** The outcome of `request`: the next state, the value the completion block receives
      at once as a success when the fast path answers, and the fetch started, if any. */
  datatype RequestStep<V> = RequestStep(
    state: Engine<V>,
    immediate: Option<V>,
    fetch: Option<FetchCall>)

  /** The outcome of a fetch result arriving: the next state and the broadcast. */
  datatype ResolveStep<V, E> = ResolveStep(state: Engine<V>, deliveries: seq<Delivery<V, E>>)

  /** The configuration a plain subclass inherits: STANDARD_TTL and the given domain. */
  function DefaultConfig(cacheDomain: string): (c: Config)
    ensures c.timeToLive == 1800 && c.cacheDomain == cacheDomain
  {
    Config(StandardTtl, cacheDomain)
  }

  function Domain<V>(s: Engine<V>): Option<string>
  {
    Some(s.config.cacheDomain)
  }

  /** Representation invariant: every mapped key names a live fetcher created for that
      key, identities are below `nextId`, and every fetcher is wave-consistent. */
  predicate Valid<V>(s: Engine<V>)
  {
    && (forall k :: k in s.index ==> s.index[k] in s.fetchers && s.fetchers[s.index[k]].key == k)
    && (forall id :: id in s.fetchers ==> id < s.nextId && WaveConsistent(s.fetchers[id]))
  }

  /** `init(onKeyFetch:)`: no fetchers yet. */
  function Init<V>(config: Config, backend: Backend<V>): (s: Engine<V>)
    ensures Valid(s)
    ensures forall k :: k !in s.index
    ensures s.fetchers == map[]
    ensures s.config == config && s.backend == backend
  {
    Engine(config, map[], map[], 0, backend)
  }

  /** The waiters of the fetcher currently mapped for `key`; none when there is none. */
  function WaitersOf<V>(s: Engine<V>, key: Key): seq<WaiterId>
  {
    if key in s.index && s.index[key] in s.fetchers then s.fetchers[s.index[key]].waiters else []
  }

  /** Whether a fetch for the fetcher currently mapped for `key` is outstanding. */
  predicate InFlight<V>(s: Engine<V>, key: Key)
  {
    key in s.index && s.index[key] in s.fetchers && s.fetchers[s.index[key]].outstanding > 0
  }

  /** `fetcherForKey`: the mapped fetcher, or a fresh empty one inserted for `key`. */
  function FetcherForKey<V>(s: Engine<V>, key: Key): (r: (Engine<V>, FetcherId))
    requires Valid(s)
    ensures Valid(r.0)
    ensures key in r.0.index && r.0.index[key] == r.1 && r.1 in r.0.fetchers
    ensures key in s.index ==> r.0 == s
    ensures r.0.fetchers.Keys == s.fetchers.Keys + {r.1}
    ensures key !in s.index ==> r.1 !in s.fetchers && r.0.fetchers[r.1] == NewFetcher(key)
    ensures forall k :: k != key ==> (k in r.0.index <==> k in s.index)
    ensures forall k :: k != key && k in s.index ==> r.0.index[k] == s.index[k]
    ensures forall id :: id in s.fetchers ==> id in r.0.fetchers && r.0.fetchers[id] == s.fetchers[id]
    ensures r.0.backend == s.backend && r.0.config == s.config
  {
    if key in s.index then (s, s.index[key])
    else
      var id := s.nextId;
      (s.(index := s.index[key := id], fetchers := s.fetchers[id := NewFetcher(key)], nextId := id + 1), id)
  }

  /** Replacing one fetcher by a wave-consistent record for the same key keeps the
      invariant and the set of fetcher ids. */
  lemma ReplaceFetcherKeepsValid<V>(s: Engine<V>, id: FetcherId, g: Fetcher<V>)
    requires Valid(s) && id in s.fetchers
    requires g.key == s.fetchers[id].key && WaveConsistent(g)
    ensures Valid(s.(fetchers := s.fetchers[id := g]))
    ensures s.fetchers[id := g].Keys == s.fetchers.Keys
  {
  }

  /** `request(refresh:key:completion:)` at time `now`, for completion block `w`. */
  function Request<V>(s: Engine<V>, key: Key, refresh: bool, w: WaiterId, now: int): (r: RequestStep<V>)
    requires Valid(s)
    ensures Valid(r.state)
    ensures r.state.backend == s.backend && r.state.config == s.config
    ensures key in r.state.index
    ensures key in s.index ==> r.state.index[key] == s.index[key]
    ensures key !in s.index ==>
      && r.state.index[key] !in s.fetchers
      && r.state.fetchers[r.state.index[key]].previousValue.None?
      && r.state.fetchers[r.state.index[key]].completionTime.None?
    ensures forall k :: k != key ==> (k in r.state.index <==> k in s.index)
    ensures forall k :: k != key && k in s.index ==> r.state.index[k] == s.index[k]
    ensures r.state.fetchers.Keys == s.fetchers.Keys + {r.state.index[key]}
    ensures forall id :: id in s.fetchers && id != r.state.index[key] ==>
      id in r.state.fetchers && r.state.fetchers[id] == s.fetchers[id]
    // fast path
    ensures r.immediate.Some? <==>
      !refresh && key in s.index && ServesFromMemory(s.fetchers[s.index[key]], s.config.timeToLive, now)
    ensures r.immediate.Some? ==>
      && r.state == s && r.fetch.None?
      && r.immediate.value == s.fetchers[s.index[key]].previousValue.value
    // coalescing
    ensures r.immediate.None? ==>
      var f := r.state.fetchers[r.state.index[key]];
      && f.waiters == WaitersOf(s, key) + [w]
      && (key in s.index ==>
            f.previousValue == s.fetchers[s.index[key]].previousValue
            && f.completionTime == s.fetchers[s.index[key]].completionTime)
    ensures r.fetch.Some? <==> r.immediate.None? && WaitersOf(s, key) == []
    ensures r.fetch.Some? ==> r.fetch.value == FetchCall(key, r.state.index[key])
  {
    var (t, id) := FetcherForKey(s, key);
    var f := t.fetchers[id];
    if !refresh && ServesFromMemory(f, s.config.timeToLive, now) then
      RequestStep(t, Some(f.previousValue.value), None)
    else
      var (g, waveInFlight) := Append(f, w);
      var started := if waveInFlight then g else g.(outstanding := g.outstanding + 1);
      assert WaveConsistent(started);
      ReplaceFetcherKeepsValid(t, id, started);
      RequestStep(t.(fetchers := t.fetchers[id := started]), None,
                  if waveInFlight then None else Some(FetchCall(key, id)))
  }

  /** The value a failed fetch may fall back on: the fetcher's own value first, else
      what the backend holds for the captured key under the engine's domain. */
  function Fallback<V>(s: Engine<V>, f: Fetcher<V>): (r: Option<V>)
    ensures f.previousValue.Some? ==> r == f.previousValue
    ensures r.Some? ==> r == f.previousValue || r == LoadFromCache(s.backend, f.key, Domain(s))
    ensures r.None? <==> f.previousValue.None? && LoadFromCache(s.backend, f.key, Domain(s)).None?
    ensures s.backend.NoCacher? ==> r == f.previousValue
  {
    if f.previousValue.Some? then f.previousValue
    else LoadFromCache(s.backend, f.key, Domain(s))
  }

  /** Every waiter of the wave, in registration order, gets `result`. */
  ghost predicate IsBroadcast<V, E>(ds: seq<Delivery<V, E>>, waiters: seq<WaiterId>, result: Result<V, E>)
  {
    |ds| == |waiters| && forall i :: 0 <= i < |ds| ==> ds[i] == Delivery(waiters[i], result)
  }

  /** The result callback bound to fetcher `id` runs with `result` at time `now`;
      `acceptable` is the engine's `useCachedResultOn` applied to the error. */
  function Resolve<V, E>(s: Engine<V>, id: FetcherId, result: Result<V, E>, now: int, acceptable: bool): (r: ResolveStep<V, E>)
    requires id in s.fetchers && s.fetchers[id].outstanding > 0
    ensures Valid(s) ==> Valid(r.state)
    ensures r.state.index == s.index && r.state.nextId == s.nextId
    ensures r.state.backend == s.backend && r.state.config == s.config
    ensures r.state.fetchers.Keys == s.fetchers.Keys
    ensures forall j :: j in s.fetchers && j != id ==> r.state.fetchers[j] == s.fetchers[j]
    ensures
      var f, g := s.fetchers[id], r.state.fetchers[id];
      && g.key == f.key && g.waiters == [] && g.outstanding == f.outstanding - 1
      // success
      && (result.Success? ==>
            && g.previousValue == Some(result.value) && g.completionTime == Some(now)
            && IsBroadcast(r.deliveries, f.waiters, Success(result.value)))
      // acceptable failure with a fallback value
      && (result.Failure? && acceptable && Fallback(s, f).Some? ==>
            && g.previousValue == Fallback(s, f) && g.completionTime == f.completionTime
            && IsBroadcast(r.deliveries, f.waiters, Success(Fallback(s, f).value)))
      // anything else
      && (result.Failure? && !(acceptable && Fallback(s, f).Some?) ==>
            && g.previousValue.None? && g.completionTime.None?
            && IsBroadcast(r.deliveries, f.waiters, result))
  {
    var f := s.fetchers[id];
    var (g, ds) :=
      match result
      case Success(v) =>
        Complete(f.(completionTime := Some(now), previousValue := Some(v)), result)
      case Failure(_) =>
        var cached := Fallback(s, f);
        if acceptable && cached.Some? then
          Complete(f.(previousValue := cached), Success(cached.value))
        else
          Complete(ClearMemory(f), result);
    ResolveStep(s.(fetchers := s.fetchers[id := g.(outstanding := f.outstanding - 1)]), ds)
  }

  /** `clearMemory(key:)`: the key's fetcher is dropped from the map; the backend is untouched. */
  function ClearMemoryKey<V>(s: Engine<V>, key: Key): (r: Engine<V>)
    ensures Valid(s) ==> Valid(r)
    ensures key !in r.index
    ensures forall k :: k != key ==> (k in r.index <==> k in s.index)
    ensures forall k :: k != key && k in s.index ==> r.index[k] == s.index[k]
    ensures r.fetchers == s.fetchers && r.nextId == s.nextId
    ensures r.backend == s.backend && r.config == s.config
  {
    s.(index := s.index - {key})
  }

  /** `clearMemory()`: the map is emptied; the backend is untouched. */
  function ClearMemoryAll<V>(s: Engine<V>): (r: Engine<V>)
    ensures Valid(s) ==> Valid(r)
    ensures forall k :: k !in r.index
    ensures r.fetchers == s.fetchers && r.nextId == s.nextId
    ensures r.backend == s.backend && r.config == s.config
  {
    s.(index := map[])
  }

  /** `clear(key:)`: `clearMemory(key:)` and the item at the key's file path removed in
      the engine's domain, together with everything below it. */
  function ClearKey<V>(s: Engine<V>, key: Key): (r: Engine<V>)
    ensures Valid(s) ==> Valid(r)
    ensures r.index == ClearMemoryKey(s, key).index
    ensures r.fetchers == s.fetchers && r.nextId == s.nextId && r.config == s.config
    ensures s.backend.NoCacher? ==> r.backend == s.backend
    ensures LoadFromCache(r.backend, key, Domain(s)).None?
    ensures forall k :: Underneath(key, k) ==> LoadFromCache(r.backend, k, Domain(s)).None?
    ensures forall k :: !Underneath(key, k) ==> LoadFromCache(r.backend, k, Domain(s)) == LoadFromCache(s.backend, k, Domain(s))
    ensures forall p :: !Within(CacheFilePath(key, Domain(s)), p) ==> Lookup(r.backend, p) == Lookup(s.backend, p)
  {
    var t := ClearMemoryKey(s, key);
    assert forall k :: Within(CacheFilePath(key, Domain(s)), CacheFilePath(k, Domain(s))) <==> Underneath(key, k) by {
      forall k
        ensures Within(CacheFilePath(key, Domain(s)), CacheFilePath(k, Domain(s))) <==> Underneath(key, k)
      {
        ClearReach(key, k, Domain(s));
      }
    }
    t.(backend := ClearCache(s.backend, key, Domain(s)))
  }

  /** `clear()`: `clearMemory()` and the engine's whole domain removed from the backend. */
  function ClearAll<V>(s: Engine<V>): (r: Engine<V>)
    ensures Valid(s) ==> Valid(r)
    ensures forall k :: k !in r.index
    ensures r.fetchers == s.fetchers && r.nextId == s.nextId && r.config == s.config
    ensures s.backend.NoCacher? ==> r.backend == s.backend
    ensures forall k :: k != "" ==> LoadFromCache(r.backend, k, Domain(s)).None?
    ensures LoadFromCache(r.backend, "", Domain(s)) == LoadFromCache(s.backend, "", Domain(s))
    ensures forall p :: !Within(CacheDirPath(Domain(s)), p) ==> Lookup(r.backend, p) == Lookup(s.backend, p)
  {
    var t := ClearMemoryAll(s);
    assert forall k :: Within(CacheDirPath(Domain(s)), CacheFilePath(k, Domain(s))) <==> k != "" by {
      forall k
        ensures Within(CacheDirPath(Domain(s)), CacheFilePath(k, Domain(s))) <==> k != ""
      {
        CacheFileInsideDir(k, s.config.cacheDomain);
      }
    }
    t.(backend := ClearCacheMap(s.backend, s.config.cacheDomain))
  }

  /** Whether `flush` writes `key`: it is mapped and its fetcher holds a value. */
  predicate Flushes<V>(s: Engine<V>, key: Key)
  {
    key in s.index && s.index[key] in s.fetchers && s.fetchers[s.index[key]].previousValue.Some?
  }

  /** What `load` yields for `key` in the engine's domain once `flush` has run. */
  function LoadAfterFlush<V>(s: Engine<V>, key: Key): Option<V>
  {
    if s.backend.JsonDisk? && Flushes(s, key) then s.fetchers[s.index[key]].previousValue
    else LoadFromCache(s.backend, key, Domain(s))
  }

  /** `flush()`: every mapped fetcher holding a value saves it under the engine's domain.
      The map is walked in an unspecified order; the result does not depend on it. */
  method Flush<V>(s: Engine<V>) returns (r: Engine<V>)
    requires Valid(s)
    ensures r.index == s.index && r.fetchers == s.fetchers && r.nextId == s.nextId && r.config == s.config
    ensures r.backend.NoCacher? <==> s.backend.NoCacher?
    ensures forall k :: LoadFromCache(r.backend, k, Domain(s)) == LoadAfterFlush(s, k)
    ensures forall p :: (forall k :: Flushes(s, k) ==> p != CacheFilePath(k, Domain(s))) ==>
      Lookup(r.backend, p) == Lookup(s.backend, p)
  {
    var todo := s.index.Keys;
    var b := s.backend;
    while todo != {}
      invariant todo <= s.index.Keys
      invariant b.NoCacher? <==> s.backend.NoCacher?
      invariant forall k ::
                  LoadFromCache(b, k, Domain(s)) ==
                  (if k in todo then LoadFromCache(s.backend, k, Domain(s)) else LoadAfterFlush(s, k))
      invariant forall p :: (forall k :: k !in todo && Flushes(s, k) ==> p != CacheFilePath(k, Domain(s))) ==>
        Lookup(b, p) == Lookup(s.backend, p)
      decreases todo
    {
      var key :| key in todo;
      var f := s.fetchers[s.index[key]];
      if f.previousValue.Some? {
        var b' := SaveToCache(b, f.previousValue.value, key, Domain(s));
        forall k
          ensures LoadFromCache(b', k, Domain(s)) ==
            (if k in todo - {key} then LoadFromCache(s.backend, k, Domain(s)) else LoadAfterFlush(s, k))
        {
          LoadAfterSave(b, f.previousValue.value, key, k, Domain(s));
        }
        b := b';
      }
      todo := todo - {key};
    }
    r := s.(backend := b);
  }
}

=== FILE: multiplexer_map_properties.dfy ===
/** Properties of the engine that relate several steps: single flight for a burst of
    requests, the fallback and failure policies seen from the next request, clearing,
    and the consequences of a fetcher being detached while its fetch is in flight. */
module MultiplexerMapProperties {
  import opened Results
  import opened Cacher
  import opened MultiplexFetcher
  import opened MultiplexerMap

  /** The combined outcome of several requests issued one after another. */
  datatype Burst<V> = Burst(state: Engine<V>, immediate: seq<V>, fetches: seq<FetchCall>)

  function OptionToSeq<T>(o: Option<T>): seq<T>
  {
    if o.Some? then [o.value] else []
  }

  /** `request(refresh:key:completion:)` for each completion block of `ws` in turn, all
      at time `now` and before any fetch result arrives. */
  function RequestAll<V>(s: Engine<V>, key: Key, refresh: bool, ws: seq<WaiterId>, now: int): (r: Burst<V>)
    requires Valid(s)
    ensures Valid(r.state)
    ensures |r.immediate| + |r.fetches| <= |ws|
    decreases |ws|
  {
    if ws == [] then Burst(s, [], [])
    else
      var step := Request(s, key, refresh, ws[0], now);
      var rest := RequestAll(step.state, key, refresh, ws[1..], now);
      Burst(rest.state, OptionToSeq(step.immediate) + rest.immediate, OptionToSeq(step.fetch) + rest.fetches)
  }

  /** One unfolding of `RequestAll`. */
  lemma RequestAllCons<V>(s: Engine<V>, key: Key, refresh: bool, ws: seq<WaiterId>, now: int)
    requires Valid(s) && ws != []
    ensures
      var step := Request(s, key, refresh, ws[0], now);
      var rest := RequestAll(step.state, key, refresh, ws[1..], now);
      RequestAll(s, key, refresh, ws, now)
        == Burst(rest.state, OptionToSeq(step.immediate) + rest.immediate, OptionToSeq(step.fetch) + rest.fetches)
  {
  }

  /** While the value is fresh, non-refreshing requests are all answered from memory with
      that value, in order, and change nothing. */
  lemma {:induction false} ServedFromMemory<V>(s: Engine<V>, key: Key, ws: seq<WaiterId>, now: int)
    requires Valid(s) && key in s.index
    requires ServesFromMemory(s.fetchers[s.index[key]], s.config.timeToLive, now)
    ensures var r := RequestAll(s, key, false, ws, now);
      && r.state == s && r.fetches == []
      && |r.immediate| == |ws|
      && forall i :: 0 <= i < |ws| ==> r.immediate[i] == s.fetchers[s.index[key]].previousValue.value
    decreases |ws|
  {
    if ws != [] {
      ServedFromMemory(s, key, ws[1..], now);
    }
  }

  /** `t` is `s` after the waiters `ws` joined the wave of `key`'s fetcher: the same
      fetcher is mapped, its waiters grew by `ws`, and its value and time are unchanged. */
  ghost predicate Joined<V>(s: Engine<V>, t: Engine<V>, key: Key, ws: seq<WaiterId>)
  {
    && key in s.index && s.index[key] in s.fetchers
    && key in t.index && t.index[key] == s.index[key] && t.index[key] in t.fetchers
    && t.fetchers[t.index[key]].waiters == s.fetchers[s.index[key]].waiters + ws
    && t.fetchers[t.index[key]].previousValue == s.fetchers[s.index[key]].previousValue
    && t.fetchers[t.index[key]].completionTime == s.fetchers[s.index[key]].completionTime
  }

  lemma JoinedTransitive<V>(s: Engine<V>, t: Engine<V>, u: Engine<V>, key: Key, a: seq<WaiterId>, b: seq<WaiterId>)
    requires Joined(s, t, key, a) && Joined(t, u, key, b)
    ensures Joined(s, u, key, a + b)
  {
    assert s.fetchers[s.index[key]].waiters + a + b == s.fetchers[s.index[key]].waiters + (a + b);
  }

  /** A wave is in flight for `key`'s fetcher and a request with `refresh` at `now`
      would not be answered from memory. */
  ghost predicate CanJoin<V>(s: Engine<V>, key: Key, refresh: bool, now: int)
  {
    && Valid(s) && key in s.index && s.index[key] in s.fetchers
    && s.fetchers[s.index[key]].waiters != []
    && (refresh || !ServesFromMemory(s.fetchers[s.index[key]], s.config.timeToLive, now))
  }

  /** One request arriving while a wave is in flight, and not answered from memory,
      only joins the wave, even when it asks for a refresh. */
  lemma RequestJoinsWave<V>(s: Engine<V>, key: Key, refresh: bool, w: WaiterId, now: int)
    requires CanJoin(s, key, refresh, now)
    ensures var r := Request(s, key, refresh, w, now);
      && r.fetch.None? && r.immediate.None?
      && Joined(s, r.state, key, [w]) && CanJoin(r.state, key, refresh, now)
  {
  }

  /** The first request of a burst during a wave only joins it; the rest of the burst
      runs from the state it leaves. */
  lemma JoinWaveStep<V>(s: Engine<V>, key: Key, refresh: bool, ws: seq<WaiterId>, now: int) returns (next: Engine<V>)
    requires CanJoin(s, key, refresh, now) && ws != []
    ensures CanJoin(next, key, refresh, now) && Joined(s, next, key, [ws[0]])
    ensures RequestAll(s, key, refresh, ws, now) == RequestAll(next, key, refresh, ws[1..], now)
  {
    next := Request(s, key, refresh, ws[0], now).state;
    RequestJoinsWave(s, key, refresh, ws[0], now);
    RequestAllCons(s, key, refresh, ws, now);
  }

  /** The outcome `JoinWave` states for a burst `r` of the waiters `ws` from `s`. */
  ghost predicate JoinedBurst<V>(s: Engine<V>, r: Burst<V>, key: Key, ws: seq<WaiterId>)
  {
    r.fetches == [] && r.immediate == [] && Joined(s, r.state, key, ws)
  }

  /** Joining `[w]` and then the rest of a burst is joining the whole burst. */
  lemma JoinedBurstCons<V>(s: Engine<V>, next: Engine<V>, r: Burst<V>, key: Key, ws: seq<WaiterId>)
    requires ws != [] && Joined(s, next, key, [ws[0]]) && JoinedBurst(next, r, key, ws[1..])
    ensures JoinedBurst(s, r, key, ws)
  {
    JoinedTransitive(s, next, r.state, key, [ws[0]], ws[1..]);
    assert [ws[0]] + ws[1..] == ws;
  }

  /** Requests arriving while a wave is in flight, and not answered from memory, only
      join the wave: no fetch is started and each is appended in order. */
  lemma {:induction false} JoinWave<V>(s: Engine<V>, key: Key, refresh: bool, ws: seq<WaiterId>, now: int)
    requires CanJoin(s, key, refresh, now)
    ensures var r := RequestAll(s, key, refresh, ws, now);
      r.fetches == [] && r.immediate == [] && Joined(s, r.state, key, ws)
    decreases |ws|
  {
    if ws == [] {
      assert s.fetchers[s.index[key]].waiters + ws == s.fetchers[s.index[key]].waiters;
    } else {
      var next := JoinWaveStep(s, key, refresh, ws, now);
      JoinWave(next, key, refresh, ws[1..], now);
      JoinedBurstCons(s, next, RequestAll(next, key, refresh, ws[1..], now), key, ws);
    }
  }

  /** No wave is in flight for `key` and a request with `refresh` at `now` would not be
      answered from memory. */
  ghost predicate CanStart<V>(s: Engine<V>, key: Key, refresh: bool, now: int)
  {
    && Valid(s) && WaitersOf(s, key) == []
    && (refresh || key !in s.index || !ServesFromMemory(s.fetchers[s.index[key]], s.config.timeToLive, now))
  }

  /** A request for a key with no wave in flight, not answered from memory, starts a wave
      of one waiter and one fetch. */
  lemma RequestStartsWave<V>(s: Engine<V>, key: Key, refresh: bool, w: WaiterId, now: int)
    requires CanStart(s, key, refresh, now)
    ensures var r := Request(s, key, refresh, w, now);
      && key in r.state.index && r.fetch == Some(FetchCall(key, r.state.index[key])) && r.immediate.None?
      && WaitersOf(r.state, key) == [w]
      && CanJoin(r.state, key, refresh, now)
  {
  }

  /** N >= 1 requests for a key with no wave in flight, the first not answered from
      memory, start exactly one fetch, and all N wait for it in order. */
  lemma BurstStartsOneWave<V>(s: Engine<V>, key: Key, refresh: bool, ws: seq<WaiterId>, now: int)
    requires CanStart(s, key, refresh, now) && |ws| > 0
    ensures var r := RequestAll(s, key, refresh, ws, now);
      && key in r.state.index && r.fetches == [FetchCall(key, r.state.index[key])]
      && r.immediate == [] && WaitersOf(r.state, key) == ws
  {
    var step := Request(s, key, refresh, ws[0], now);
    RequestStartsWave(s, key, refresh, ws[0], now);
    var rest := RequestAll(step.state, key, refresh, ws[1..], now);
    JoinWave(step.state, key, refresh, ws[1..], now);
    RequestAllCons(s, key, refresh, ws, now);
    assert [ws[0]] + ws[1..] == ws;
  }

  /** Single flight: N >= 1 requests for a key with no wave in flight start exactly one
      fetch, and all N wait for it, unless the first is answered from memory, in which
      case all are and none fetches. */
  lemma SingleFlight<V>(s: Engine<V>, key: Key, refresh: bool, ws: seq<WaiterId>, now: int)
    requires Valid(s) && |ws| > 0 && WaitersOf(s, key) == []
    ensures var r := RequestAll(s, key, refresh, ws, now);
      var fromMemory := !refresh && key in s.index && ServesFromMemory(s.fetchers[s.index[key]], s.config.timeToLive, now);
      && (fromMemory ==> r.fetches == [] && r.state == s && |r.immediate| == |ws|)
      && (!fromMemory ==> |r.fetches| == 1 && r.immediate == [] && WaitersOf(r.state, key) == ws)
  {
    if !refresh && key in s.index && ServesFromMemory(s.fetchers[s.index[key]], s.config.timeToLive, now) {
      ServedFromMemory(s, key, ws, now);
    } else {
      BurstStartsOneWave(s, key, refresh, ws, now);
    }
  }

  /** A refreshing request always starts a fetch unless it joins a wave in flight. */
  lemma RefreshFetchesUnlessInFlight<V>(s: Engine<V>, key: Key, w: WaiterId, now: int)
    requires Valid(s)
    ensures var r := Request(s, key, true, w, now);
      && r.immediate.None?
      && (r.fetch.Some? <==> !InFlight(s, key))
  {
  }

  /** Waiters are present exactly while a fetch is outstanding, and at most one fetch is
      outstanding, for every fetcher, mapped or detached. */
  lemma OneFetchPerWave<V>(s: Engine<V>, id: FetcherId)
    requires Valid(s) && id in s.fetchers
    ensures s.fetchers[id].outstanding <= 1
    ensures s.fetchers[id].waiters != [] <==> s.fetchers[id].outstanding == 1
  {
  }

  /** After a failure no fallback masked, the next request for the key fetches again
      instead of serving a stale value. */
  lemma FailureThenRequestFetches<V, E>(s: Engine<V>, id: FetcherId, err: E, t: int, acceptable: bool,
                                        refresh: bool, w: WaiterId, now: int)
    requires Valid(s) && id in s.fetchers && s.fetchers[id].outstanding > 0
    requires !(acceptable && Fallback(s, s.fetchers[id]).Some?)
    requires s.fetchers[id].key in s.index && s.index[s.fetchers[id].key] == id
    ensures var r := Resolve<V, E>(s, id, Failure(err), t, acceptable);
      && IsBroadcast(r.deliveries, s.fetchers[id].waiters, Failure(err))
      && Request(r.state, s.fetchers[id].key, refresh, w, now).fetch.Some?
  {
  }

  /** A value obtained by a successful fetch masks a later acceptable failure: every
      waiter of that wave gets the value and the value stays in memory. */
  lemma SuccessMasksLaterAcceptableFailure<V, E>(s: Engine<V>, key: Key, v: V, t1: int,
                                                 w: WaiterId, t2: int, err: E, t3: int)
    requires Valid(s) && InFlight(s, key)
    ensures
      var r1 := Resolve<V, E>(s, s.index[key], Success(v), t1, true);
      var r2 := Request(r1.state, key, true, w, t2);
      && r2.fetch == Some(FetchCall(key, s.index[key]))
      && var r3 := Resolve<V, E>(r2.state, s.index[key], Failure(err), t3, true);
      && r3.deliveries == [Delivery(w, Success(v))]
      && r3.state.fetchers[s.index[key]].previousValue == Some(v)
      && r3.state.fetchers[s.index[key]].completionTime == Some(t1)
  {
    var id := s.index[key];
    var r1 := Resolve<V, E>(s, id, Success(v), t1, true);
    assert r1.state.fetchers[id].waiters == [];
  }

  /** Memory takes precedence over the backend: when the fetcher holds a value, what the
      backend holds makes no difference to a failed fetch's outcome. */
  lemma MemoryBeforeBackend<V, E>(s: Engine<V>, other: Backend<V>, id: FetcherId, result: Result<V, E>,
                                  t: int, acceptable: bool)
    requires id in s.fetchers && s.fetchers[id].outstanding > 0
    requires s.fetchers[id].previousValue.Some?
    ensures var r1, r2 := Resolve(s, id, result, t, acceptable), Resolve(s.(backend := other), id, result, t, acceptable);
      && r1.deliveries == r2.deliveries
      && r1.state.fetchers == r2.state.fetchers
  {
  }

  /** With the null backend a failure is masked exactly when it is acceptable and the
      fetcher itself holds a value. */
  lemma NoCacherMasksOnlyFromMemory<V, E>(s: Engine<V>, id: FetcherId, err: E, t: int, acceptable: bool)
    requires s.backend.NoCacher?
    requires id in s.fetchers && s.fetchers[id].outstanding > 0 && s.fetchers[id].waiters != []
    ensures var r := Resolve<V, E>(s, id, Failure(err), t, acceptable);
      r.deliveries[0].result.Success? <==> acceptable && s.fetchers[id].previousValue.Some?
  {
  }

  /** `clear(key:)` followed by a request always fetches afresh, whatever was cached or
      in flight before. */
  lemma ClearThenRequestFetches<V>(s: Engine<V>, key: Key, refresh: bool, w: WaiterId, now: int)
    requires Valid(s)
    ensures var r := Request(ClearKey(s, key), key, refresh, w, now);
      && r.fetch.Some? && r.immediate.None?
      && r.state.index[key] !in s.fetchers
  {
  }

  /** `clearMemory(key:)` while a fetch is in flight detaches the fetcher: a new request
      starts a second fetch for the same key on a new fetcher, both are outstanding at
      once, and the first wave's result later lands in the detached fetcher only. */
  lemma DetachedWaveAllowsSecondFetch<V, E>(s: Engine<V>, key: Key, refresh: bool, w: WaiterId, now: int,
                                            result: Result<V, E>, t: int, acceptable: bool)
    requires Valid(s) && InFlight(s, key)
    ensures
      var detached := s.index[key];
      var r := Request(ClearMemoryKey(s, key), key, refresh, w, now);
      && r.fetch.Some? && r.fetch.value.key == key && r.fetch.value.fetcher != detached
      && r.state.fetchers[detached].outstanding == 1 && r.state.fetchers[r.fetch.value.fetcher].outstanding == 1
      && var later := Resolve(r.state, detached, result, t, acceptable);
      && later.state.index == r.state.index
      && later.state.fetchers[r.fetch.value.fetcher] == r.state.fetchers[r.fetch.value.fetcher]
  {
  }

  /** A fresh key: the first fetch times out with nothing to fall back on and the caller
      gets the timeout; the second succeeds; a third request within the time to live is
      answered from memory; a fourth once it has elapsed fetches again. */
  lemma FreshKeyTimeline<V, E>(config: Config, key: Key, timeout: E, value: V,
                               t0: int, t1: int, t2: int, t3: int, t4: int, t5: int)
    requires t3 <= t4 < t3 + config.timeToLive <= t5
    ensures
      var s0 := Init<V>(config, JsonDisk(map[]));
      var r1 := Request(s0, key, false, 1, t0);
      && r1.fetch == Some(FetchCall(key, 0))
      && var r2 := Resolve<V, E>(r1.state, 0, Failure(timeout), t1, true);
      && r2.deliveries == [Delivery(1, Failure(timeout))]
      && var r3 := Request(r2.state, key, false, 2, t2);
      && r3.fetch == Some(FetchCall(key, 0))
      && var r4 := Resolve<V, E>(r3.state, 0, Success(value), t3, true);
      && r4.deliveries == [Delivery(2, Success(value))]
      && var r5 := Request(r4.state, key, false, 3, t4);
      && r5.immediate == Some(value) && r5.fetch.None?
      && var r6 := Request(r5.state, key, false, 4, t5);
      && r6.fetch == Some(FetchCall(key, 0))
  {
    var s0 := Init<V>(config, JsonDisk(map[]));
    var r1 := Request(s0, key, false, 1, t0);
    assert r1.state.index == map[key := 0];
    assert r1.state.fetchers[0] == Fetcher(key, None, None, [1], 1);
    assert LoadFromCache(r1.state.backend, key, Domain(r1.state)).None?;
    var r2 := Resolve<V, E>(r1.state, 0, Failure(timeout), t1, true);
    assert r2.state.fetchers[0] == Fetcher(key, None, None, [], 0);
    var r3 := Request(r2.state, key, false, 2, t2);
    assert r3.state.fetchers[0] == Fetcher(key, None, None, [2], 1);
    var r4 := Resolve<V, E>(r3.state, 0, Success(value), t3, true);
    assert r4.state.fetchers[0] == Fetcher(key, Some(value), Some(t3), [], 0);
    var r5 := Request(r4.state, key, false, 3, t4);
    assert r5.state == r4.state;
  }
}

=== FILE: results.dfy ===
/** Optional values and the success/failure outcome handed to every completion block
    (Swift's `T?` and `Result<T, Error>`). */
module Results {

  datatype Option<+T> = None | Some(value: T)

  datatype Result<+T, +E> = Success(value: T) | Failure(error: E)
}
